=== FILE: README.md ===
# Hexagon word match: a Dafny model of the puzzle core

The game (`script.js`, class `WordSearchGame`) shows an n-by-n board of
letters laid out as staggered hexagon rows. Odd rows are shifted half a
cell to the right. The player drags across neighbouring cells to spell a
listed word, forwards or backwards. This project models the three parts of
the game that carry its logic, with the DOM stripped away:

- **Adjacency** (module `Hex`). The six-offset "offset-row" neighbourhood
  depends on the row's parity. `isValidPosition` is the bounds check;
  `getNeighborPositions`, `isAdjacent` and `getValidDirections` use the
  offset table.
- **Grid generation** (modules `Board`, `Oracle`, `WordOrder`, `Generator`).
  This is `initializeGrid`:
  - start from an empty grid;
  - sort the words longest first;
  - try up to 100 random (start cell, direction) picks per word, each one
    through `canPlaceWord` and `placeWordAt`;
  - fill the cells still empty with random letters A to Z.
- **Selection tracking** (module `Selection`). This is `handleDragStart`,
  `handleDragMove`, `handleDragEnd` and `checkSelection`, over abstract
  events. Pressing on a cell, moving onto a cell and releasing are the
  events `Pick`, `Hover` and `Release`. The DOM cell under the mouse or
  finger is its coordinate, or `None` when it is not a letter cell.

`Math.random` is replaced by an injected stream of draws (`Oracle.Rng`).
Each `Math.floor(Math.random() * k)` consumes one draw and yields it modulo
k, in the same order as the source. So every outcome of the generator is a
function of the stream, and a concrete stream can force any pick.

Three facts about the code shape the model:

- Neighbour enumeration and direction enumeration use the same six offsets.
- Directions are not shuffled. Each attempt draws a start cell and, when
  at least one direction leaves it, one direction (script.js:50). On a
  1-by-1 board none does, so no word is placed.
- A word is marked placed as soon as `canPlaceWord` accepts it, even when
  `placeWordAt` refuses the pick. This is modelled as written, and logged
  under Findings.

Main results:

- Adjacency is exactly the hexagonal neighbourhood cut to the board
  (`Hex.AdjacentIff`). It is irreflexive, symmetric on the board and
  asymmetric off it.
- A straight placement of three or more letters is connected exactly when
  its direction is horizontal or keeps the column (`Board.StraightPathConnected`).
  So `placeWordAt` always refuses a word of three or more letters along the
  upward or the downward offset that shifts the column: up-left and
  down-left from an even row, up-right and down-right from an odd row.
- A placement never overwrites a letter.
- The placement order is a stable longest-first permutation.
- The fill pass keeps placed letters and adds only A to Z.
- The selection is always a simple path. Every simple path can be selected.
- Releasing on a listed word finds it.
- The congratulation fires at most once. From the start of a game it fires
  exactly when all listed words are found and the list is non-empty with no
  repeated word.
- With `placed` taken from `placeWordAt`, every non-empty word the
  generator reports placed is found by dragging over its cells and
  releasing. On a board of more than one cell the empty word is reported
  placed, since both checking loops (script.js:124, 153) run zero times.
  But no checked selection is empty, so it is never found, and listing it
  means the congratulation never fires (`Selection.EmptyWordNeverCompletes`).

## Model

| member | source | states |
|---|---|---|
| Common.Reverse | script.js:330 | the reversed selection string has the same length and holds the characters in the opposite order |
| Common.ElementsCardinality | script.js:344 | a word list has at most as many distinct words as entries, and exactly as many iff no word is repeated |
| Hex.NeighborPositions | script.js:209-233 | the neighbour positions are at most six and all lie on the board |
| Hex.ValidDirections | script.js:95-114 | a direction is returned iff it is one of the six offsets for the row's parity and one step along it stays on the board; at most six |
| Hex.OffsetsAreHexNeighbors | script.js:214-230 | the six offsets for a row's parity reach exactly the cells one column apart in the same row, or one row apart with the parity-dependent column shift |
| Hex.AdjacentIff | script.js:196-233 | `isAdjacent(a, b)` holds iff b is on the board and is a hexagonal neighbour of a |
| Hex.AdjacentIrreflexive | script.js:209-233 | no cell is adjacent to itself |
| Hex.AdjacentSymmetric | script.js:214-230 | for a on the board, if b is adjacent to a then a is adjacent to b |
| Hex.AdjacentAsymmetricOffBoard | script.js:196-233 | for an off-board cell symmetry fails: (0, n) lists (0, n-1) as a neighbour but not conversely |
| Hex.DirectionsReachNeighbors | script.js:95-114 | stepping along the valid directions gives exactly the neighbour positions, in the same order, and each such step reaches an adjacent cell |
| Hex.PathReversed | script.js:196-233 | a connected sequence of on-board cells read backwards is still connected |
| Board.EmptyGrid | script.js:30-33 | the initial grid is n by n with every cell empty |
| Board.FitsFrom | script.js:124-136 | the check loop from letter i succeeds iff every later letter lands on the board in an empty cell or one holding that letter |
| Board.CanPlaceWord | script.js:120-139 | `canPlaceWord` holds iff for every i the cell start + i·direction is on the board and empty or already holds word[i] |
| Board.WriteLetters | script.js:167-169 | writing leaves every cell off the path unchanged, and on a repeat-free path each path cell holds its letter |
| Board.PlaceWordAt | script.js:141-172 | succeeds iff consecutive cells are adjacent; on failure the grid is unchanged; on success the path is simple and spells the word; off-path cells never change |
| Board.PathDistinct | script.js:146-164 | a connected straight path visits no cell twice |
| Board.PlacementNeverOverwrites | script.js:52-53 | after `canPlaceWord` accepts, `placeWordAt` keeps every existing letter and fills only empty cells, with letters of the word |
| Board.StraightLinked | script.js:153-164 | a straight placement along the horizontal or column-keeping offsets passes the adjacency loop |
| Board.DiagonalBroken | script.js:153-164 | along an offset that shifts both row and column, the third cell of a placement is not adjacent to the second |
| Board.StraightPathConnected | script.js:141-164 | for three or more letters, `placeWordAt` accepts a straight placement iff the direction keeps the row or the column |
| Oracle.Draw | script.js:46-47 | a draw with bound k > 0 lies in [0, k), and each draw consumes one value of the stream |
| Oracle.DrawReachesEveryValue | script.js:46-47 | every value below the bound is produced by a stream that holds it next |
| WordOrder.Insert | script.js:36 | inserting keeps the multiset of words plus the new one and keeps a longest-first list longest-first |
| WordOrder.SortByLength | script.js:36 | the placement order is a permutation of the words with non-increasing lengths |
| WordOrder.InsertStable | script.js:36 | insertion puts the new word ahead of the words of its length and keeps their order |
| WordOrder.SortStable | script.js:36 | for each length, the words of that length keep their input order (the sort is stable) |
| Generator.DrawStart | script.js:46-47 | the start cell of an attempt is on the board whenever the board is non-empty; it takes two draws |
| Generator.DrawPick | script.js:46-52 | a pick that passed is a valid direction from its start that `canPlaceWord` accepts |
| Generator.PickDirection | script.js:48-52 | with the start fixed, a pick that passed uses a valid direction from that start that `canPlaceWord` accepts |
| Generator.TryPlaceWord | script.js:40-58 | the loop as written: 1 to 100 attempts; unplaced only after 100; a placed word passed `canPlaceWord`; when its cells are connected it is written along a simple path, otherwise the grid is unchanged; letters are never overwritten; every cell off the reported pick's path keeps its value |
| Generator.TryPlaceWordFixed | script.js:40-58 | the loop with `placed` taken from `placeWordAt`: a word reported placed lies along a simple path that spells it; letters are never overwritten; every cell off that path keeps its value |
| Generator.CornerDownLeftBroken | script.js:52-54 | from the top-right cell down-left, a word of 3 to n letters fits `canPlaceWord` on an empty board but its cells are not connected |
| Generator.DroppedWord | script.js:52-54 | some stream makes the as-written loop report a word of 3 to n letters placed while the grid stays empty |
| Generator.UpperLettersKept | script.js:39-58 | placing an upper-case word keeps every letter of the grid upper-case |
| Generator.FillEmpty | script.js:66-72 | the fill pass yields an n-by-n letter grid that keeps each placed letter and puts A to Z in each empty cell |
| Generator.FilledUpper | script.js:66-72 | if every placed letter is A to Z then every cell of the finished grid is A to Z |
| Generator.SpellsSurviveFill | script.js:66-72 | the fill pass keeps each placed word readable along its cells |
| Generator.ReportsSurviveFill | script.js:66-72 | after the fill pass, each placed word that was spelled on the grid is still read along its simple path |
| Generator.PlaceOne | script.js:39-63 | one word: 1 to 100 attempts, 100 when unplaced, nothing overwritten, a pick reported iff the word is placed, every cell off that pick's path unchanged; a placed word whose cells are connected, or any placed word with the fix, is spelled along a simple path |
| Generator.PlaceAll | script.js:39-63 | every sorted word is reported in order with its attempt count, no letter is overwritten, a cell on no reported pick's path keeps its starting value, and every placed word whose cells are connected (with the fix, every placed word) is still spelled at the end |
| Generator.Generate | script.js:29-72 | the result is an n-by-n letter grid; reports cover the words in exactly the stable longest-first order of `SortByLength`; attempts are within 1 to 100; upper-case words give an all A to Z grid; every word reported placed whose cells are connected (with the fix, every word reported placed) can be read along a simple path |
| Selection.DragStart | script.js:278-286 | pressing on a letter cell makes it the whole selection and starts a drag; pressing elsewhere changes nothing |
| Selection.DragMove | script.js:288-299 | the selection changes iff a drag is on and the cell is new and adjacent to the last one, and then only by appending it; the tracker invariant is kept |
| Selection.Match | script.js:330-333 | the selection matches iff it or its reverse is listed, and the forward word is preferred |
| Selection.CheckSelection | script.js:325-349 | `foundWords` only grows, and only with listed words: the forward word if listed, else the reversed one; completion fires iff a new word brings the set's size to the list's length |
| Selection.DragEnd | script.js:301-310 | with a drag on, the selection is checked, then cleared and the drag ended, and completion fires exactly when the check fires it; otherwise nothing happens |
| Selection.Handle | script.js:278-310 | every event keeps the selection a simple path, non-empty exactly while dragging; only a release can add found words or complete |
| Selection.Run | script.js:278-310 | over any event sequence the invariant holds and the found set only grows, with listed words |
| Selection.MatchEitherDirection | script.js:330-333 | unless both a spelling and its reverse are listed, selecting either way matches the same word |
| Selection.ReselectChangesNothing | script.js:334 | releasing on a word already found changes nothing and does not complete |
| Selection.HandleCompletes | script.js:344-346 | one event completes iff the list has no repeats and this event's find completes the set of listed words |
| Selection.RunCompletions | script.js:344-346 | over a run, completion fires once if the found set goes from short of the listed words to all of them and the list has no repeats, never otherwise |
| Selection.CompletesOnceFromInitial | script.js:325-349 | from the start of a game, completion fires once iff the list is non-empty, has no repeats and all its words end up found; otherwise never |
| Selection.NoCompletionWithRepeats | script.js:344 | with a repeated word in the list the congratulation never fires |
| Selection.RunNeverFindsEmpty | script.js:325-337 | over any run from a state without it, the empty word never joins the found words, because a checked selection and its reverse are never empty |
| Selection.EmptyWordNeverCompletes | script.js:325-346 | a word list holding the empty word never finds it and never fires the congratulation |
| Selection.SpelledReversed | script.js:326-330 | reading a selection backwards spells the reversed word |
| Selection.HoversExtend | script.js:288-299 | dragging across the rest of a simple path from a prefix selection selects the whole path |
| Selection.PathIsSelectable | script.js:278-299 | every simple path on the board is selected by pressing on its first cell and dragging across the rest |
| Selection.TraceFindsWord | script.js:278-349 | selecting a listed word along cells that spell it and releasing adds it to the found words |
| Selection.PlacedWordFound | script.js:278-349 | with `placed` taken from `placeWordAt`, a listed non-empty word reported placed is found by pressing on its first cell, dragging along its cells and releasing |
| Selection.TraceBackwardFindsWord | script.js:325-333 | selecting it backwards finds it too, unless its reverse is also listed, in which case the reverse is found |

## Left out

- DOM and SVG work is not modelled: building cells, word-list display, path
  drawing, cell centres, the current-word display and resize handling.
  These are presentation only.
- Mouse, touch and resize wiring and `elementFromPoint` hit-testing are
  replaced by the abstract events `Pick`, `Hover` and `Release`. The target
  is a coordinate or `None`.
- `Math.random` floating point is not modelled. A draw is a stream value
  modulo the bound, so the distribution of outcomes is not modelled; only
  which outcomes are possible.
- `toUpperCase` in the constructor is not modelled. Words are taken as
  given. The upper-case guarantees are stated for word lists that are
  already upper-case.
- JavaScript string lengths count UTF-16 code units; here a string is a
  sequence of characters.
- `parseInt` on dataset strings is not modelled: coordinates are integers
  throughout.
- `console.warn`, `alert`, `setTimeout`, CSS classes and animations have no
  logic and are not modelled. The congratulation is the `complete` flag.
- A grid size that is not a natural number is not modelled.
- Board.PlaceWordAt: requires the word's cells to be on the board. Its only
  caller guarantees this through `canPlaceWord`. Called alone with an
  off-board start, the source would write outside the rows, and that case is
  not modelled.
- Selection.DragMove: requires a non-empty selection while dragging. The
  source reads the last selected cell and would fail on an empty one; no
  sequence of handlers reaches that state (`Selection.Handle` keeps it
  excluded).
- Selection.DragEnd: a listed word holding a character that breaks the
  `[data-word="…"]` selector (`"` or `\`) makes the source throw right after
  adding it to `foundWords` (script.js:335-337). The completion test
  (script.js:344) is then skipped, and the clean-up of `handleDragEnd`
  (script.js:303-306) never runs, so the drag stays on. The model takes
  words to be plain letters and always finishes the release.
- Selection.Handle: requires event targets to be on-board coordinates,
  because every letter cell the source creates carries one.

## Findings

| source | as written | input that shows it | evidently intended | confidence | as-written member | corrected member |
|---|---|---|---|---|---|---|
| script.js:52-54 | `placed = true` follows the call to `placeWordAt` whatever it returns | "FUN" on a 3-by-3 board with draws 0, 2, 2: start (0,2), direction down-left (1,-1); the cells are free, but (2,0) is not adjacent to (1,1), so nothing is written, yet the word is reported placed and never retried | set `placed` from the result of `placeWordAt`, so a refused pick costs one attempt | high (proved; not executed) | Generator.DroppedWord | Generator.TryPlaceWordFixed |

=== FILE: board.dfy ===
/** The letter grid under construction and the two placement primitives,
    `canPlaceWord` and `placeWordAt`. */
module Board {
  import opened Common
  import opened Hex

  /** Rows of cells; `None` is a cell that holds no letter yet (`null`). */
  type Grid = seq<seq<Option<char>>>

  /** An n-by-n grid. */
  predicate IsGrid(g: Grid, n: nat) {
    |g| == n && forall i :: 0 <= i < n ==> |g[i]| == n
  }

  function At(g: Grid, n: nat, c: Coord): Option<char>
    requires IsGrid(g, n) && IsValidPosition(n, c)
  {
    g[c.row][c.col]
  }

  /** The grid the generator starts from: every cell empty. */
  function EmptyGrid(n: nat): (g: Grid)
    ensures IsGrid(g, n)
    ensures forall c :: IsValidPosition(n, c) ==> At(g, n, c) == None
  {
    seq(n, _ => seq(n, _ => None))
  }

  /** Every letter of `g` is still in place in `h`: nothing was overwritten. */
  ghost predicate Extends(g: Grid, h: Grid, n: nat)
    requires IsGrid(g, n) && IsGrid(h, n)
  {
    forall c :: IsValidPosition(n, c) && At(g, n, c).Some? ==> At(h, n, c) == At(g, n, c)
  }

  /** Every cell of `h` either is as in `g`, or was empty in `g` and now holds
      a letter of `word`. */
  ghost predicate OnlyAdds(g: Grid, h: Grid, n: nat, word: string)
    requires IsGrid(g, n) && IsGrid(h, n)
  {
    forall c :: IsValidPosition(n, c) ==>
      At(h, n, c) == At(g, n, c) || (At(g, n, c).None? && At(h, n, c).Some? && At(h, n, c).value in word)
  }

  lemma {:induction false} ExtendsTransitive(f: Grid, g: Grid, h: Grid, n: nat)
    requires IsGrid(f, n) && IsGrid(g, n) && IsGrid(h, n)
    requires Extends(f, g, n) && Extends(g, h, n)
    ensures Extends(f, h, n)
  {
  }

  /** The i-th cell of a straight placement: `start + i * direction`. */
  function Pos(start: Coord, d: Offset, i: int): Coord {
    Coord(start.row + d.dr * i, start.col + d.dc * i)
  }

  /** The `len` cells a placement of a word of length `len` would use. */
  function Path(start: Coord, d: Offset, len: nat): (ps: seq<Coord>)
    ensures |ps| == len

  {
    seq(len, i => Pos(start, d, i))
  }

  /** The letter `ch` may go into cell `c`: on the board, and empty or
      already holding `ch`. */
  ghost predicate CellFits(g: Grid, n: nat, c: Coord, ch: char)
    requires IsGrid(g, n)
  {
    IsValidPosition(n, c) && (At(g, n, c) == None || At(g, n, c) == Some(ch))
  }

  /** The check loop of `canPlaceWord` from letter `i` on; it stops at the
      first letter that leaves the board or conflicts. */
  function FitsFrom(g: Grid, n: nat, word: string, start: Coord, d: Offset, i: nat): (ok: bool)
    requires IsGrid(g, n) && i <= |word|
    ensures ok <==> forall k :: i <= k < |word| ==> CellFits(g, n, Pos(start, d, k), word[k])
    decreases |word| - i
  {
    if i == |word| then true
    else
      var c := Pos(start, d, i);
      if !IsValidPosition(n, c) then false
      else if g[c.row][c.col].Some? && g[c.row][c.col].value != word[i] then false
      else FitsFrom(g, n, word, start, d, i + 1)
  }

  /** `canPlaceWord`: every letter of the word lands on the board, in a cell
      that is empty or already holds that very letter. */
  function CanPlaceWord(g: Grid, n: nat, word: string, start: Coord, d: Offset): (ok: bool)
    requires IsGrid(g, n)
    ensures ok <==> forall i :: 0 <= i < |word| ==> CellFits(g, n, Pos(start, d, i), word[i])
  {
    FitsFrom(g, n, word, start, d, 0)
  }

  function Write(g: Grid, n: nat, c: Coord, ch: char): (h: Grid)
    requires IsGrid(g, n) && IsValidPosition(n, c)
    ensures IsGrid(h, n)
    ensures At(h, n, c) == Some(ch)
    ensures forall x :: IsValidPosition(n, x) && x != c ==> At(h, n, x) == At(g, n, x)
  {
    g[c.row := g[c.row][c.col := Some(ch)]]
  }

  /** The write loop of `placeWordAt`: letter i goes to cell `ps[i]`, in order. */
  function WriteLetters(g: Grid, n: nat, ps: seq<Coord>, word: string): (h: Grid)
    requires IsGrid(g, n) && OnBoard(n, ps) && |ps| == |word|
    ensures IsGrid(h, n)
    ensures forall c :: IsValidPosition(n, c) && c !in ps ==> At(h, n, c) == At(g, n, c)
    ensures Distinct(ps) ==> forall i :: 0 <= i < |ps| ==> At(h, n, ps[i]) == Some(word[i])
    decreases |ps|
  {
    if |ps| == 0 then g
    else
      var h := WriteLetters(Write(g, n, ps[0], word[0]), n, ps[1..], word[1..]);
      assert forall i :: 0 < i < |ps| ==> ps[i] == ps[1..][i - 1];
      h
  }

  /** The outcome of `placeWordAt`: whether it wrote, and the grid after. */
  datatype Placed = Placed(ok: bool, grid: Grid)

  /** `placeWordAt`: if every consecutive pair of the word's cells is
      adjacent, write the word along them and report success; otherwise
      report failure and leave the grid alone. The caller has already checked
      that the cells are on the board. */
  function PlaceWordAt(g: Grid, n: nat, word: string, start: Coord, d: Offset): (r: Placed)
    requires IsGrid(g, n)
    requires OnBoard(n, Path(start, d, |word|))
    ensures IsGrid(r.grid, n)
    ensures r.ok <==> IsPath(n, Path(start, d, |word|))
    ensures !r.ok ==> r.grid == g
    ensures r.ok ==> IsSimplePath(n, Path(start, d, |word|))
    ensures r.ok ==> forall i :: 0 <= i < |word| ==> At(r.grid, n, Path(start, d, |word|)[i]) == Some(word[i])
    ensures forall c :: IsValidPosition(n, c) && c !in Path(start, d, |word|) ==> At(r.grid, n, c) == At(g, n, c)
  {
    var ps := Path(start, d, |word|);
    if !IsPath(n, ps) then Placed(false, g)
    else
      PathDistinct(n, start, d, |word|);
      Placed(true, WriteLetters(g, n, ps, word))
  }

  /** Consecutive cells of a straight placement are one direction step apart. */
  lemma {:induction false} PathStep(start: Coord, d: Offset, len: nat, i: nat)
    requires 0 < i < len
    ensures Path(start, d, len)[i] == Step(Path(start, d, len)[i - 1], d)
  {
    assert d.dr * i == d.dr * (i - 1) + d.dr;
    assert d.dc * i == d.dc * (i - 1) + d.dc;
  }

  /** A unit multiple of a non-zero step is never zero. */
  lemma {:induction false} UnitTimes(x: int, k: int)
    requires x == 1 || x == -1
    requires k != 0
    ensures x * k != 0
  {
  }

  /** Along a direction with a unit component, distinct steps reach distinct
      cells. */
  lemma {:induction false} PosInjective(start: Coord, d: Offset, i: int, j: int)
    requires d.dr == 1 || d.dr == -1 || d.dc == 1 || d.dc == -1
    requires i != j
    ensures Pos(start, d, i) != Pos(start, d, j)
  {
    if d.dr == 1 || d.dr == -1 {
      UnitTimes(d.dr, j - i);
      assert d.dr * j - d.dr * i == d.dr * (j - i);
    } else {
      UnitTimes(d.dc, j - i);
      assert d.dc * j - d.dc * i == d.dc * (j - i);
    }
  }

  /** A connected straight path never visits a cell twice: adjacency is
      irreflexive, so the direction is not zero and its multiples differ. */
  lemma {:induction false} PathDistinct(n: nat, start: Coord, d: Offset, len: nat)
    requires IsPath(n, Path(start, d, len))
    ensures Distinct(Path(start, d, len))
  {
    var ps := Path(start, d, len);
    if len >= 2 {
      assert IsAdjacent(n, ps[0], ps[1]);
      AdjacentIff(n, ps[0], ps[1]);
      PathStep(start, d, len, 1);
      assert d.dr == 1 || d.dr == -1 || d.dc == 1 || d.dc == -1;
      forall i, j | 0 <= i < j < len
        ensures ps[i] != ps[j]
      {
        PosInjective(start, d, i, j);
      }
    }
  }

  /** A placement that passed `canPlaceWord` never changes a letter already
      in the grid: it only fills empty cells, and only with the word's
      letters. */
  lemma {:induction false} PlacementNeverOverwrites(g: Grid, n: nat, word: string, start: Coord, d: Offset)
    requires IsGrid(g, n)
    requires CanPlaceWord(g, n, word, start, d)
    ensures OnBoard(n, Path(start, d, |word|))
    ensures Extends(g, PlaceWordAt(g, n, word, start, d).grid, n)
    ensures OnlyAdds(g, PlaceWordAt(g, n, word, start, d).grid, n, word)
  {
    var ps := Path(start, d, |word|);
    assert forall i :: 0 <= i < |word| ==> CellFits(g, n, Pos(start, d, i), word[i]);
    var r := PlaceWordAt(g, n, word, start, d);
    forall c | IsValidPosition(n, c)
      ensures At(g, n, c).Some? ==> At(r.grid, n, c) == At(g, n, c)
      ensures At(r.grid, n, c) == At(g, n, c) || (At(g, n, c).None? && At(r.grid, n, c).Some? && At(r.grid, n, c).value in word)
    {
      if r.ok && c in ps {
        var i :| 0 <= i < |word| && ps[i] == c;
        assert CellFits(g, n, Pos(start, d, i), word[i]);
        assert At(r.grid, n, c) == Some(word[i]);
      }
    }
  }

  /** A placement along a direction of the table that keeps the column or
      the row is connected: each step is the same one-cell offset. */
  lemma {:induction false} StraightLinked(n: nat, start: Coord, d: Offset, len: nat)
    requires d in Offsets(start.row) && (d.dr == 0 || d.dc == 0)
    requires OnBoard(n, Path(start, d, len))
    ensures IsPath(n, Path(start, d, len))
  {
    var ps := Path(start, d, len);
    forall i | 0 < i < len
      ensures IsAdjacent(n, ps[i - 1], ps[i])
    {
      PathStep(start, d, len, i);
      AdjacentIff(n, ps[i - 1], ps[i]);
    }
  }

  /** A direction that shifts both row and column is read from the start
      row's parity; the second row has the other parity, so the third cell is
      not a neighbour of the second. */
  lemma {:induction false} DiagonalBroken(n: nat, start: Coord, d: Offset, len: nat)
    requires d in Offsets(start.row) && d.dr != 0 && d.dc != 0
    requires len >= 3
    ensures !IsAdjacent(n, Path(start, d, len)[1], Path(start, d, len)[2])
  {
    var ps := Path(start, d, len);
    PathStep(start, d, len, 2);
    AdjacentIff(n, ps[1], ps[2]);
    ParityFlip(start.row);
  }

  /** Which straight placements of three or more letters `placeWordAt`
      accepts: exactly those whose direction is horizontal or keeps the
      column. */
  lemma {:induction false} StraightPathConnected(n: nat, start: Coord, d: Offset, len: nat)
    requires d in Offsets(start.row)
    requires len >= 3
    requires OnBoard(n, Path(start, d, len))
    ensures IsPath(n, Path(start, d, len)) <==> (d.dr == 0 || d.dc == 0)
  {
    if d.dr == 0 || d.dc == 0 {
      StraightLinked(n, start, d, len);
    } else {
      DiagonalBroken(n, start, d, len);
    }
  }
}

=== FILE: common.dfy ===
/** Shared vocabulary: optional values and a few facts about sequences. */
module Common {

  /** A value that may be absent; a grid cell that holds no letter yet is `None`. */
  datatype Option<T> = None | Some(value: T)

  /** No element occurs twice. */
  ghost predicate Distinct<T>(s: seq<T>) {
    forall i, j :: 0 <= i < j < |s| ==> s[i] != s[j]
  }

  /** The set of elements of a sequence. */
  function Elements<T>(s: seq<T>): set<T> {
    set x | x in s
  }

  /** The elements of `s` in the opposite order. */
  function Reverse<T>(s: seq<T>): (r: seq<T>)
    ensures |r| == |s|
    ensures forall i :: 0 <= i < |s| ==> r[i] == s[|s| - 1 - i]
  {
    if |s| == 0 then [] else Reverse(s[1..]) + [s[0]]
  }

  /** Reversing twice gives back the original sequence. */
  lemma {:induction false} ReverseReverse<T>(s: seq<T>)
    ensures Reverse(Reverse(s)) == s
  {
    var r := Reverse(Reverse(s));
    assert |r| == |s|;
    forall i | 0 <= i < |s|
      ensures r[i] == s[i]
    {
      assert r[i] == Reverse(s)[|s| - 1 - i];
    }
  }

  /** A sequence has as many distinct elements as it has positions exactly
      when no element is repeated. */
  lemma {:induction false} ElementsCardinality<T>(s: seq<T>)
    ensures |Elements(s)| <= |s|
    ensures |Elements(s)| == |s| <==> Distinct(s)
  {
    if |s| == 0 {
      assert Elements(s) == {};
    } else {
      var t := s[1..];
      ElementsCardinality(t);
      assert Elements(s) == Elements(t) + {s[0]} by {
        forall x ensures x in Elements(s) <==> x in Elements(t) + {s[0]} {
          if x in s && x != s[0] {
            var k :| 0 <= k < |s| && s[k] == x;
            assert t[k - 1] == x;
          }
        }
      }
      if s[0] in t {
        var k :| 0 <= k < |t| && t[k] == s[0];
        assert s[k + 1] == s[0];
        assert !Distinct(s);
      } else {
        assert s[0] !in Elements(t);
        assert |Elements(s)| == |Elements(t)| + 1;
        if Distinct(t) {
          forall i, j | 0 <= i < j < |s|
            ensures s[i] != s[j]
          {
            assert s[j] == t[j - 1];
            if i > 0 {
              assert s[i] == t[i - 1];
            }
          }
        }
        if Distinct(s) {
          forall i, j | 0 <= i < j < |t|
            ensures t[i] != t[j]
          {
            assert t[i] == s[i + 1] && t[j] == s[j + 1];
          }
        }
      }
    }
  }

  /** Reversing keeps a sequence free of repeats. */
  lemma {:induction false} ReverseDistinct<T>(s: seq<T>)
    requires Distinct(s)
    ensures Distinct(Reverse(s))
  {
    var r := Reverse(s);
    forall i, j | 0 <= i < j < |r|
      ensures r[i] != r[j]
    {
      assert r[i] == s[|s| - 1 - i] && r[j] == s[|s| - 1 - j];
    }
  }
}

=== FILE: generator.dfy ===
/** The grid generator of `initializeGrid`: words longest first, up to 100
    random (start, direction) picks per word, then random filler letters in
    every cell left empty. */
module Generator {
  import opened Common
  import opened Hex
  import opened Board
  import opened Oracle
  import opened WordOrder

  /** `maxAttempts`: random picks allowed per word. */
  const MaxAttempts: nat := 100

  /** A start cell together with the direction a word is written in. */
  datatype Placement = Placement(start: Coord, dir: Offset)

  /** What the attempt loop for one word leaves behind: the grid, the rest of
      the random stream, the `placed` flag, the value of `attempts`, and the
      pick that ended the loop, if any. */
  datatype WordOutcome = WordOutcome(grid: Grid, rng: Rng, placed: bool, attempts: nat, at: Option<Placement>)

  /** The cells of `ps` read in order spell `word`. */
  ghost predicate Spells(g: Grid, n: nat, ps: seq<Coord>, word: string)
    requires IsGrid(g, n)
  {
    |ps| == |word| && OnBoard(n, ps) && forall i :: 0 <= i < |ps| ==> At(g, n, ps[i]) == Some(word[i])
  }

  function PathOf(p: Placement, word: string): seq<Coord> {
    Path(p.start, p.dir, |word|)
  }

  /** One random pick and its `canPlaceWord` test: what remains of the random
      stream, and the pick if it passed. */
  datatype Picked = Picked(rest: Rng, at: Option<Placement>)

  /** The random start cell of an attempt: a row draw, then a column draw. */
  function DrawStart(n: nat, rng: Rng): (r: (Coord, Rng))
    ensures n > 0 ==> IsValidPosition(n, r.0)
    ensures r.1.draws == rng.draws && r.1.used == rng.used + 2
  {
    var row := Draw(rng, n);
    var col := Draw(row.rest, n);
    (Coord(row.value, col.value), col.rest)
  }

  /** The body of the attempt loop up to `canPlaceWord`: a random start cell,
      and if some direction leaves it, one of them drawn at random. */
  function DrawPick(g: Grid, n: nat, word: string, rng: Rng): (r: Picked)
    requires IsGrid(g, n)
    ensures r.at.Some? ==> r.at.value.dir in ValidDirections(n, r.at.value.start)
    ensures r.at.Some? ==> CanPlaceWord(g, n, word, r.at.value.start, r.at.value.dir)
    ensures r.rest.draws == rng.draws && r.rest.used > rng.used
  {
    var (start, rest) := DrawStart(n, rng);
    PickDirection(g, n, word, start, rest)
  }

  /** The second half of an attempt: with the start cell fixed, a direction
      drawn among the valid ones and checked by `canPlaceWord`. */
  function PickDirection(g: Grid, n: nat, word: string, start: Coord, rng: Rng): (r: Picked)
    requires IsGrid(g, n)
    ensures r.at.Some? ==> r.at.value.start == start && r.at.value.dir in ValidDirections(n, start)
    ensures r.at.Some? ==> CanPlaceWord(g, n, word, start, r.at.value.dir)
    ensures r.rest.draws == rng.draws && r.rest.used >= rng.used
  {
    var dirs := ValidDirections(n, start);
    if |dirs| > 0 then
      var pick := Draw(rng, |dirs|);
      var d := dirs[pick.value];
      if CanPlaceWord(g, n, word, start, d) then Picked(pick.rest, Some(Placement(start, d)))
      else Picked(pick.rest, None)
    else
      Picked(rng, None)
  }

  /** A stream whose next two draws are an on-board cell starts the attempt
      at that cell. */
  lemma {:induction false} DrawStartAt(n: nat, rng: Rng, start: Coord)
    requires IsValidPosition(n, start)
    requires rng.used + 1 < |rng.draws|
    requires rng.draws[rng.used] == start.row && rng.draws[rng.used + 1] == start.col
    ensures DrawStart(n, rng) == (start, Rng(rng.draws, rng.used + 2))
  {
    DrawReachesEveryValue(rng.draws, rng.used, n, start.row);
    DrawReachesEveryValue(rng.draws, rng.used + 1, n, start.col);
  }

  /** A stream whose next draw is the index of direction `d` among the valid
      ones picks `d`. */
  lemma {:induction false} PickDirectionAt(g: Grid, n: nat, word: string, start: Coord, rng: Rng, k: nat)
    requires IsGrid(g, n)
    requires k < |ValidDirections(n, start)|
    requires rng.used < |rng.draws| && rng.draws[rng.used] == k
    ensures var d := ValidDirections(n, start)[k];
            PickDirection(g, n, word, start, rng)
            == Picked(Rng(rng.draws, rng.used + 1), if CanPlaceWord(g, n, word, start, d) then Some(Placement(start, d)) else None)
  {
    DrawReachesEveryValue(rng.draws, rng.used, |ValidDirections(n, start)|, k);
  }

  /** The `while (!placed && attempts < maxAttempts)` loop for one word, as
      written: `placed` is set as soon as `canPlaceWord` accepts a pick, and
      the result of `placeWordAt` is ignored. So a pick whose cells are free
      but not connected ends the loop with `placed` set and nothing written. */
  function TryPlaceWord(g: Grid, n: nat, word: string, rng: Rng, attempts: nat): (r: WordOutcome)
    requires IsGrid(g, n) && attempts <= MaxAttempts
    ensures IsGrid(r.grid, n)
    ensures attempts <= r.attempts <= MaxAttempts
    ensures r.placed <==> r.at.Some?
    ensures !r.placed ==> r.attempts == MaxAttempts && r.grid == g
    ensures r.placed ==> r.attempts > attempts && CanPlaceWord(g, n, word, r.at.value.start, r.at.value.dir)
    ensures r.placed ==>
              if IsPath(n, PathOf(r.at.value, word))
              then IsSimplePath(n, PathOf(r.at.value, word)) && Spells(r.grid, n, PathOf(r.at.value, word), word)
              else r.grid == g
    ensures Extends(g, r.grid, n) && OnlyAdds(g, r.grid, n, word)
    ensures forall c :: IsValidPosition(n, c) && (!r.placed || c !in PathOf(r.at.value, word)) ==> At(r.grid, n, c) == At(g, n, c)
    ensures r.rng.draws == rng.draws && r.rng.used >= rng.used
    decreases MaxAttempts - attempts
  {
    if attempts >= MaxAttempts then WordOutcome(g, rng, false, attempts, None)
    else
      var p := DrawPick(g, n, word, rng);
      match p.at
      case None => TryPlaceWord(g, n, word, p.rest, attempts + 1)
      case Some(pl) =>
        PlacementNeverOverwrites(g, n, word, pl.start, pl.dir);
        WordOutcome(PlaceWordAt(g, n, word, pl.start, pl.dir).grid, p.rest, true, attempts + 1, p.at)
  }

  /** The same loop with `placed` taken from `placeWordAt`'s result, so that a
      rejected pick costs one attempt instead of ending the loop. A word
      reported placed is then really on the board, along a simple path. */
  function TryPlaceWordFixed(g: Grid, n: nat, word: string, rng: Rng, attempts: nat): (r: WordOutcome)
    requires IsGrid(g, n) && attempts <= MaxAttempts
    ensures IsGrid(r.grid, n)
    ensures attempts <= r.attempts <= MaxAttempts
    ensures r.placed <==> r.at.Some?
    ensures !r.placed ==> r.attempts == MaxAttempts && r.grid == g
    ensures r.placed ==> IsSimplePath(n, PathOf(r.at.value, word)) && Spells(r.grid, n, PathOf(r.at.value, word), word)
    ensures Extends(g, r.grid, n) && OnlyAdds(g, r.grid, n, word)
    ensures forall c :: IsValidPosition(n, c) && (!r.placed || c !in PathOf(r.at.value, word)) ==> At(r.grid, n, c) == At(g, n, c)
    ensures r.rng.draws == rng.draws && r.rng.used >= rng.used
    decreases MaxAttempts - attempts
  {
    if attempts >= MaxAttempts then WordOutcome(g, rng, false, attempts, None)
    else
      var p := DrawPick(g, n, word, rng);
      match p.at
      case None => TryPlaceWordFixed(g, n, word, p.rest, attempts + 1)
      case Some(pl) =>
        PlacementNeverOverwrites(g, n, word, pl.start, pl.dir);
        var q := PlaceWordAt(g, n, word, pl.start, pl.dir);
        if q.ok then WordOutcome(q.grid, p.rest, true, attempts + 1, p.at)
        else TryPlaceWordFixed(g, n, word, p.rest, attempts + 1)
  }

  /** Going down-left from the top-right cell, a word of 3 to n letters fits
      on an empty board, but its cells do not form a path: the second and
      third cells are not neighbours. */
  lemma {:induction false} CornerDownLeftBroken(n: nat, word: string)
    requires 3 <= |word| <= n
    ensures CanPlaceWord(EmptyGrid(n), n, word, Coord(0, n - 1), Offset(1, -1))
    ensures OnBoard(n, Path(Coord(0, n - 1), Offset(1, -1), |word|))
    ensures !IsPath(n, Path(Coord(0, n - 1), Offset(1, -1), |word|))
  {
    var start, d := Coord(0, n - 1), Offset(1, -1);
    var ps := Path(start, d, |word|);
    var g := EmptyGrid(n);
    forall i | 0 <= i < |word|
      ensures CellFits(g, n, Pos(start, d, i), word[i])
    {
      assert Pos(start, d, i) == Coord(i, n - 1 - i);
    }
    assert ps[1] == Coord(1, n - 2) && ps[2] == Coord(2, n - 3);
    AdjacentIff(n, ps[1], ps[2]);
    assert !IsAdjacent(n, ps[1], ps[2]);
  }

  /** The word is dropped silently. On an empty board of size n >= 3, with a
      word of 3 to n letters, drawing row 0, column n-1 and then the index `k`
      of the down-left direction gives the free cells (0,n-1), (1,n-2),
      (2,n-3), ... (at whatever attempt this pick comes).
      `canPlaceWord` accepts them, `placeWordAt` refuses them
      because (2,n-3) is not a neighbour of (1,n-2), and the loop still
      reports the word placed, on a grid that does not contain it. For
      instance "FUN" on a 3-by-3 board with draws 0, 2, 2. */
  lemma {:induction false} DroppedWord(n: nat, word: string, attempts: nat) returns (k: nat)
    requires 3 <= |word| <= n
    requires attempts < MaxAttempts
    ensures var r := TryPlaceWord(EmptyGrid(n), n, word, Rng([0, n - 1, k], 0), attempts);
            r.placed && r.grid == EmptyGrid(n)
  {
    var start := Coord(0, n - 1);
    var dirs := ValidDirections(n, start);
    assert Offset(1, -1) in Offsets(0);
    assert Offset(1, -1) in dirs;
    k :| 0 <= k < |dirs| && dirs[k] == Offset(1, -1);
    var rng := Rng([0, n - 1, k], 0);
    var g := EmptyGrid(n);
    var d := Offset(1, -1);
    DrawStartAt(n, rng, start);
    PickDirectionAt(g, n, word, start, Rng(rng.draws, 2), k);
    CornerDownLeftBroken(n, word);
    assert DrawPick(g, n, word, rng) == Picked(Rng(rng.draws, 3), Some(Placement(start, d)));
    var p := PlaceWordAt(g, n, word, start, d);
    assert !p.ok && p.grid == g;
  }

  /** Every letter written into the grid is an upper-case letter A to Z. */
  ghost predicate LettersUpper(g: Grid, n: nat)
    requires IsGrid(g, n)
  {
    forall c :: IsValidPosition(n, c) && At(g, n, c).Some? ==> 'A' <= At(g, n, c).value <= 'Z'
  }

  predicate IsUpperLetter(ch: char) {
    'A' <= ch <= 'Z'
  }

  ghost predicate IsUpperWord(w: string) {
    forall i :: 0 <= i < |w| ==> IsUpperLetter(w[i])
  }

  /** A finished letter grid: n rows of n letters. */
  predicate IsLetterGrid(lg: seq<seq<char>>, n: nat) {
    |lg| == n && forall i :: 0 <= i < n ==> |lg[i]| == n
  }

  /** The letter a finished cell may hold: the one placed there, or any
      filler letter A to Z if the cell was left empty. */
  ghost predicate FilledFrom(cell: Option<char>, ch: char) {
    match cell
    case Some(x) => ch == x
    case None => IsUpperLetter(ch)
  }

  /** The fill pass: row by row, each empty cell gets
      `String.fromCharCode(65 + Math.floor(Math.random() * 26))`; placed
      letters are kept. */
  method FillEmpty(g: Grid, n: nat, rng: Rng) returns (letters: seq<seq<char>>, rest: Rng)
    requires IsGrid(g, n)
    ensures IsLetterGrid(letters, n)
    ensures forall i, j :: 0 <= i < n && 0 <= j < n ==> FilledFrom(g[i][j], letters[i][j])
    ensures rest.draws == rng.draws && rest.used >= rng.used
  {
    letters := [];
    rest := rng;
    var i := 0;
    while i < n
      invariant 0 <= i <= n
      invariant |letters| == i
      invariant forall a :: 0 <= a < i ==> |letters[a]| == n
      invariant forall a, b :: 0 <= a < i && 0 <= b < n ==> FilledFrom(g[a][b], letters[a][b])
      invariant rest.draws == rng.draws && rest.used >= rng.used
    {
      var line: seq<char> := [];
      var j := 0;
      while j < n
        invariant 0 <= j <= n
        invariant |line| == j
        invariant forall b :: 0 <= b < j ==> FilledFrom(g[i][b], line[b])
        invariant rest.draws == rng.draws && rest.used >= rng.used
      {
        var ch: char;
        match g[i][j] {
          case Some(x) =>
            ch := x;
          case None =>
            var k := Draw(rest, 26);
            rest := k.rest;
            ch := (65 + k.value) as char;
        }
        line := line + [ch];
        j := j + 1;
      }
      letters := letters + [line];
      i := i + 1;
    }
  }

  /** Placing an upper-case word keeps every letter of the grid upper-case. */
  lemma {:induction false} UpperLettersKept(g: Grid, h: Grid, n: nat, w: string)
    requires IsGrid(g, n) && IsGrid(h, n)
    requires LettersUpper(g, n) && IsUpperWord(w) && OnlyAdds(g, h, n, w)
    ensures LettersUpper(h, n)
  {
    forall c | IsValidPosition(n, c) && At(h, n, c).Some?
      ensures IsUpperLetter(At(h, n, c).value)
    {
      if At(g, n, c).None? {
        var x := At(h, n, c).value;
        var m :| 0 <= m < |w| && w[m] == x;
      }
    }
  }

  /** If every placed letter is upper-case, the filled grid is upper-case
      throughout: the fill pass keeps placed letters and adds only A to Z. */
  lemma {:induction false} FilledUpper(g: Grid, letters: seq<seq<char>>, n: nat)
    requires IsGrid(g, n) && IsLetterGrid(letters, n) && LettersUpper(g, n)
    requires forall i, j :: 0 <= i < n && 0 <= j < n ==> FilledFrom(g[i][j], letters[i][j])
    ensures forall i, j :: 0 <= i < n && 0 <= j < n ==> IsUpperLetter(letters[i][j])
  {
    forall i, j | 0 <= i < n && 0 <= j < n
      ensures IsUpperLetter(letters[i][j])
    {
      assert At(g, n, Coord(i, j)) == g[i][j];
    }
  }

  /** What happened to one word: the word, the final `placed` flag, the
      number of attempts used and the pick that ended the loop. */
  datatype Report = Report(word: string, placed: bool, attempts: nat, at: Option<Placement>)

  /** The finished letter grid reads `word` along `ps`. */
  ghost predicate ReadsAlong(letters: seq<seq<char>>, n: nat, ps: seq<Coord>, word: string)
    requires IsLetterGrid(letters, n)
  {
    |ps| == |word| && OnBoard(n, ps) && forall i :: 0 <= i < |ps| ==> letters[ps[i].row][ps[i].col] == word[i]
  }

  /** Cell `c` is not one the report's placement wrote to. */
  ghost predicate OffPath(c: Coord, r: Report)
  {
    r.at.None? || c !in PathOf(r.at.value, r.word)
  }

  /** The report's pick passes the adjacency loop of `placeWordAt`, so its
      letters were written, whether or not `placed` follows that result. */
  ghost predicate Linked(n: nat, r: Report)
  {
    r.at.Some? && IsPath(n, PathOf(r.at.value, r.word))
  }

  /** A report whose word, if placed, lies along a simple path of `g`. */
  ghost predicate OnGrid(g: Grid, n: nat, r: Report)
    requires IsGrid(g, n)
  {
    r.placed ==> r.at.Some? && IsSimplePath(n, PathOf(r.at.value, r.word)) && Spells(g, n, PathOf(r.at.value, r.word), r.word)
  }

  /** Letters that spell a word stay in place when the grid only grows. */
  lemma {:induction false} SpellsKept(g: Grid, h: Grid, n: nat, ps: seq<Coord>, w: string)
    requires IsGrid(g, n) && IsGrid(h, n) && Extends(g, h, n)
    requires Spells(g, n, ps, w)
    ensures Spells(h, n, ps, w)
  {
    forall i | 0 <= i < |ps|
      ensures At(h, n, ps[i]) == Some(w[i])
    {
      assert At(g, n, ps[i]).Some?;
    }
  }

  /** The letters a placement spelled survive the fill pass: the finished
      grid reads the word along the same cells. */
  lemma {:induction false} SpellsSurviveFill(g: Grid, letters: seq<seq<char>>, n: nat, ps: seq<Coord>, w: string)
    requires IsGrid(g, n) && IsLetterGrid(letters, n)
    requires forall i, j :: 0 <= i < n && 0 <= j < n ==> FilledFrom(g[i][j], letters[i][j])
    requires Spells(g, n, ps, w)
    ensures ReadsAlong(letters, n, ps, w)
  {
    forall i | 0 <= i < |ps|
      ensures letters[ps[i].row][ps[i].col] == w[i]
    {
      assert At(g, n, ps[i]) == g[ps[i].row][ps[i].col];
    }
  }

  /** Every report whose word the placement phase left spelled on the grid
      can still be read along its cells after the fill pass. */
  lemma {:induction false} ReportsSurviveFill(g: Grid, letters: seq<seq<char>>, n: nat, reports: seq<Report>, fixed: bool)
    requires IsGrid(g, n) && IsLetterGrid(letters, n)
    requires forall i, j :: 0 <= i < n && 0 <= j < n ==> FilledFrom(g[i][j], letters[i][j])
    requires forall i :: 0 <= i < |reports| && (fixed || Linked(n, reports[i])) ==> OnGrid(g, n, reports[i])
    ensures forall i :: 0 <= i < |reports| && reports[i].placed && (fixed || Linked(n, reports[i])) ==>
              reports[i].at.Some? && IsSimplePath(n, PathOf(reports[i].at.value, reports[i].word)) &&
              ReadsAlong(letters, n, PathOf(reports[i].at.value, reports[i].word), reports[i].word)
  {
    forall i | 0 <= i < |reports| && reports[i].placed && (fixed || Linked(n, reports[i]))
      ensures ReadsAlong(letters, n, PathOf(reports[i].at.value, reports[i].word), reports[i].word)
    {
      assert OnGrid(g, n, reports[i]);
      SpellsSurviveFill(g, letters, n, PathOf(reports[i].at.value, reports[i].word), reports[i].word);
    }
  }

  function WordsOf(reports: seq<Report>): (ws: seq<string>)
    ensures |ws| == |reports|
    ensures forall i :: 0 <= i < |reports| ==> ws[i] == reports[i].word
  {
    if |reports| == 0 then [] else [reports[0].word] + WordsOf(reports[1..])
  }

  /** One word of the placement phase: its attempt loop from a fresh count,
      as written or, when `fixed` is set, with `placed` taken from
      `placeWordAt`, and the report `initializeGrid` keeps of it. */
  method PlaceOne(g: Grid, n: nat, w: string, rng: Rng, fixed: bool) returns (h: Grid, report: Report, rest: Rng)
    requires IsGrid(g, n)
    ensures IsGrid(h, n) && Extends(g, h, n)
    ensures report.word == w && 1 <= report.attempts <= MaxAttempts
    ensures !report.placed ==> report.attempts == MaxAttempts
    ensures fixed || Linked(n, report) ==> OnGrid(h, n, report)
    ensures IsUpperWord(w) && LettersUpper(g, n) ==> LettersUpper(h, n)
    ensures report.placed <==> report.at.Some?
    ensures forall c :: IsValidPosition(n, c) && OffPath(c, report) ==> At(h, n, c) == At(g, n, c)
  {
    var o := if fixed then TryPlaceWordFixed(g, n, w, rng, 0) else TryPlaceWord(g, n, w, rng, 0);
    if IsUpperWord(w) && LettersUpper(g, n) {
      UpperLettersKept(g, o.grid, n, w);
    }
    h, report, rest := o.grid, Report(w, o.placed, o.attempts, o.at), o.rng;
  }

  /** The placement phase of `initializeGrid`: the attempt loop for each
      word of `sorted`, in order, starting from `g`. */
  method PlaceAll(g0: Grid, n: nat, sorted: seq<string>, rng: Rng, fixed: bool) returns (g: Grid, reports: seq<Report>, rest: Rng)
    requires IsGrid(g0, n)
    ensures IsGrid(g, n)
    ensures forall i :: 0 <= i < |reports| && (fixed || Linked(n, reports[i])) ==> OnGrid(g, n, reports[i])
    ensures WordsOf(reports) == sorted
    ensures forall i :: 0 <= i < |reports| ==> 1 <= reports[i].attempts <= MaxAttempts
    ensures forall i :: 0 <= i < |reports| && !reports[i].placed ==> reports[i].attempts == MaxAttempts
    ensures Extends(g0, g, n)
    ensures (forall w :: w in sorted ==> IsUpperWord(w)) && LettersUpper(g0, n) ==> LettersUpper(g, n)
    ensures forall i :: 0 <= i < |reports| ==> (reports[i].placed <==> reports[i].at.Some?)
    ensures forall c :: IsValidPosition(n, c) && (forall i :: 0 <= i < |reports| ==> OffPath(c, reports[i])) ==> At(g, n, c) == At(g0, n, c)
  {
    g, rest := g0, rng;
    reports := [];
    var k := 0;
    ghost var upper := (forall w :: w in sorted ==> IsUpperWord(w)) && LettersUpper(g0, n);
    while k < |sorted|
      invariant 0 <= k <= |sorted|
      invariant IsGrid(g, n)
      invariant |reports| == k
      invariant forall i :: 0 <= i < k ==> reports[i].word == sorted[i]
      invariant forall i :: 0 <= i < k ==> 1 <= reports[i].attempts <= MaxAttempts
      invariant forall i :: 0 <= i < k && !reports[i].placed ==> reports[i].attempts == MaxAttempts
      invariant Extends(g0, g, n)
      invariant upper ==> LettersUpper(g, n)
      invariant forall i :: 0 <= i < k && (fixed || Linked(n, reports[i])) ==> OnGrid(g, n, reports[i])
      invariant forall i :: 0 <= i < k ==> (reports[i].placed <==> reports[i].at.Some?)
      invariant forall c :: IsValidPosition(n, c) && (forall i :: 0 <= i < k ==> OffPath(c, reports[i])) ==> At(g, n, c) == At(g0, n, c)
    {
      ghost var before := g;
      var report;
      g, report, rest := PlaceOne(g, n, sorted[k], rest, fixed);
      ExtendsTransitive(g0, before, g, n);
      forall i | 0 <= i < k && (fixed || Linked(n, reports[i])) && reports[i].placed
        ensures Spells(g, n, PathOf(reports[i].at.value, reports[i].word), reports[i].word)
      {
        SpellsKept(before, g, n, PathOf(reports[i].at.value, reports[i].word), reports[i].word);
      }
      reports := reports + [report];
      k := k + 1;
    }
    assert WordsOf(reports) == sorted;
  }

  /** `initializeGrid` without its DOM part: empty grid, the attempt loop for
      each word longest first, then the fill pass. */
  method Generate(words: seq<string>, n: nat, rng: Rng, fixed: bool) returns (letters: seq<seq<char>>, reports: seq<Report>)
    ensures IsLetterGrid(letters, n)
    ensures forall i :: 0 <= i < |reports| && reports[i].placed && (fixed || Linked(n, reports[i])) ==>
              reports[i].at.Some? && IsSimplePath(n, PathOf(reports[i].at.value, reports[i].word)) &&
              ReadsAlong(letters, n, PathOf(reports[i].at.value, reports[i].word), reports[i].word)
    ensures multiset(WordsOf(reports)) == multiset(words)
    ensures LongestFirst(WordsOf(reports))
    ensures WordsOf(reports) == SortByLength(words)
    ensures forall i :: 0 <= i < |reports| ==> 1 <= reports[i].attempts <= MaxAttempts
    ensures forall i :: 0 <= i < |reports| && !reports[i].placed ==> reports[i].attempts == MaxAttempts
    ensures (forall w :: w in words ==> IsUpperWord(w)) ==>
              forall i, j :: 0 <= i < n && 0 <= j < n ==> IsUpperLetter(letters[i][j])
  {
    var sorted := SortByLength(words);
    var g0 := EmptyGrid(n);
    if forall w :: w in words ==> IsUpperWord(w) {
      forall w | w in sorted
        ensures IsUpperWord(w)
      {
        assert w in multiset(sorted);
      }
    }
    var g, r;
    g, reports, r := PlaceAll(g0, n, sorted, rng, fixed);
    letters, r := FillEmpty(g, n, r);
    ReportsSurviveFill(g, letters, n, reports, fixed);
    if forall w :: w in words ==> IsUpperWord(w) {
      FilledUpper(g, letters, n);
    }
  }
}

=== FILE: hex.dfy ===
/** The adjacency model of the staggered ("offset-row") hexagonal board: the
    six-offset table, neighbour enumeration, the adjacency test and the
    direction enumeration used when placing words. */
module Hex {
  import opened Common

  /** A board position. Rows and columns may lie off the board while a
      placement path is being probed. */
  datatype Coord = Coord(row: int, col: int)

  /** A (row, column) displacement. */
  datatype Offset = Offset(dr: int, dc: int)

  /** The parity test `row % 2 === 0`. JavaScript's `%` truncates toward zero
      and Dafny's is Euclidean, but the two agree on whether the remainder is
      zero, so the test is the same for negative rows too. */
  predicate IsEvenRow(row: int) {
    row % 2 == 0
  }

  /** The offset table shared by neighbour and direction enumeration, in the
      source's order: right, left, up-right, up-left, down-right, down-left.
      Even rows reach columns {c-1, c} of the rows above and below, odd rows
      reach {c, c+1}. */
  function Offsets(row: int): (ds: seq<Offset>)
    ensures |ds| == 6
  {
    var even := IsEvenRow(row);
    [ Offset(0, 1),
      Offset(0, -1),
      Offset(-1, if even then 0 else 1),
      Offset(-1, if even then -1 else 0),
      Offset(1, if even then 0 else 1),
      Offset(1, if even then -1 else 0) ]
  }

  function Step(c: Coord, d: Offset): Coord {
    Coord(c.row + d.dr, c.col + d.dc)
  }

  /** The bounds check of an n-by-n board. */
  predicate IsValidPosition(n: nat, c: Coord) {
    0 <= c.row < n && 0 <= c.col < n
  }

  /** Independent description of the hexagonal neighbourhood, by the
      difference between the two cells: same row and one column apart, or one
      row apart and the column shifted as the parity of `a`'s row allows. */
  predicate HexNeighbor(a: Coord, b: Coord) {
    var dr := b.row - a.row;
    var dc := b.col - a.col;
    || (dr == 0 && (dc == 1 || dc == -1))
    || ((dr == 1 || dr == -1) &&
        (if IsEvenRow(a.row) then dc == 0 || dc == -1 else dc == 0 || dc == 1))
  }

  /** The cells one offset away from `c`, one per offset and in the same order. */
  function Targets(c: Coord, ds: seq<Offset>): (r: seq<Coord>)
    ensures |r| == |ds|
    ensures forall i :: 0 <= i < |ds| ==> r[i] == Step(c, ds[i])
  {
    if |ds| == 0 then [] else [Step(c, ds[0])] + Targets(c, ds[1..])
  }

  /** The elements of `cs` that lie on the board, order kept. */
  function KeepValid(n: nat, cs: seq<Coord>): (r: seq<Coord>)
    ensures |r| <= |cs|
    ensures forall x :: x in r <==> x in cs && IsValidPosition(n, x)
  {
    if |cs| == 0 then []
    else if IsValidPosition(n, cs[0]) then [cs[0]] + KeepValid(n, cs[1..])
    else KeepValid(n, cs[1..])
  }

  /** The offsets of `ds` whose single step from `c` stays on the board, order kept. */
  function KeepInBounds(n: nat, c: Coord, ds: seq<Offset>): (r: seq<Offset>)
    ensures |r| <= |ds|
    ensures forall d :: d in r <==> d in ds && IsValidPosition(n, Step(c, d))
  {
    if |ds| == 0 then []
    else if IsValidPosition(n, Step(c, ds[0])) then [ds[0]] + KeepInBounds(n, c, ds[1..])
    else KeepInBounds(n, c, ds[1..])
  }

  /** `getNeighborPositions`: the on-board cells one offset away. */
  function NeighborPositions(n: nat, c: Coord): (r: seq<Coord>)
    ensures |r| <= 6
    ensures forall x :: x in r ==> IsValidPosition(n, x)
  {
    KeepValid(n, Targets(c, Offsets(c.row)))
  }

  /** `isAdjacent`: `b` is among the neighbour positions of `a`. */
  predicate IsAdjacent(n: nat, a: Coord, b: Coord) {
    b in NeighborPositions(n, a)
  }

  /** `getValidDirections`: the offsets whose one step from `c` stays on the
      board. Only one step is looked ahead, whatever the word's length. */
  function ValidDirections(n: nat, c: Coord): (r: seq<Offset>)
    ensures |r| <= 6
    ensures forall d :: d in r <==> d in Offsets(c.row) && IsValidPosition(n, Step(c, d))
  {
    KeepInBounds(n, c, Offsets(c.row))
  }

  /** Consecutive positions are adjacent. */
  predicate IsPath(n: nat, ps: seq<Coord>) {
    forall i :: 0 < i < |ps| ==> IsAdjacent(n, ps[i - 1], ps[i])
  }

  predicate OnBoard(n: nat, ps: seq<Coord>) {
    forall i :: 0 <= i < |ps| ==> IsValidPosition(n, ps[i])
  }

  /** A path on the board that never revisits a cell: what a placement writes
      along and what a selection may be. */
  ghost predicate IsSimplePath(n: nat, ps: seq<Coord>) {
    OnBoard(n, ps) && Distinct(ps) && IsPath(n, ps)
  }

  lemma {:induction false} ParityFlip(r: int)
    ensures IsEvenRow(r + 1) <==> !IsEvenRow(r)
    ensures IsEvenRow(r - 1) <==> !IsEvenRow(r)
  {
  }

  /** Every offset of the table leads to a hexagonal neighbour. */
  lemma {:induction false} OffsetTargetIsHexNeighbor(c: Coord, i: int)
    requires 0 <= i < 6
    ensures HexNeighbor(c, Step(c, Offsets(c.row)[i]))
  {
    var d := Offsets(c.row)[i];
    if IsEvenRow(c.row) {
      assert d in [Offset(0, 1), Offset(0, -1), Offset(-1, 0), Offset(-1, -1), Offset(1, 0), Offset(1, -1)];
    } else {
      assert d in [Offset(0, 1), Offset(0, -1), Offset(-1, 1), Offset(-1, 0), Offset(1, 1), Offset(1, 0)];
    }
  }

  /** Every hexagonal neighbour is reached by some offset of the table. */
  lemma {:induction false} HexNeighborHasOffset(c: Coord, x: Coord) returns (i: int)
    requires HexNeighbor(c, x)
    ensures 0 <= i < 6 && Step(c, Offsets(c.row)[i]) == x
  {
    var ds := Offsets(c.row);
    var dr, dc := x.row - c.row, x.col - c.col;
    if dr == 0 {
      i := if dc == 1 then 0 else 1;
    } else if dr == -1 {
      i := if dc == ds[2].dc then 2 else 3;
    } else {
      i := if dc == ds[4].dc then 4 else 5;
    }
  }

  /** The offset table lists exactly the hexagonal neighbours. */
  lemma {:induction false} OffsetsAreHexNeighbors(c: Coord, x: Coord)
    ensures x in Targets(c, Offsets(c.row)) <==> HexNeighbor(c, x)
  {
    var ts := Targets(c, Offsets(c.row));
    if x in ts {
      var i :| 0 <= i < 6 && ts[i] == x;
      OffsetTargetIsHexNeighbor(c, i);
    }
    if HexNeighbor(c, x) {
      var i := HexNeighborHasOffset(c, x);
      assert ts[i] == x;
    }
  }

  /** Adjacency is the hexagonal neighbourhood restricted to the board: the
      neighbour positions are bounds-checked and nothing else is dropped. */
  lemma {:induction false} AdjacentIff(n: nat, a: Coord, b: Coord)
    ensures IsAdjacent(n, a, b) <==> IsValidPosition(n, b) && HexNeighbor(a, b)
  {
    OffsetsAreHexNeighbors(a, b);
  }

  /** No cell is its own neighbour. */
  lemma {:induction false} AdjacentIrreflexive(n: nat, c: Coord)
    ensures !IsAdjacent(n, c, c)
  {
    AdjacentIff(n, c, c);
  }

  /** The hexagonal neighbourhood is symmetric: the even-row and odd-row
      column shifts mirror each other. */
  lemma {:induction false} HexNeighborSymmetric(a: Coord, b: Coord)
    requires HexNeighbor(a, b)
    ensures HexNeighbor(b, a)
  {
    ParityFlip(a.row);
  }

  /** Adjacency between two on-board cells is symmetric. */
  lemma {:induction false} AdjacentSymmetric(n: nat, a: Coord, b: Coord)
    requires IsValidPosition(n, a)
    ensures IsAdjacent(n, a, b) ==> IsAdjacent(n, b, a)
  {
    AdjacentIff(n, a, b);
    if IsAdjacent(n, a, b) {
      HexNeighborSymmetric(a, b);
      AdjacentIff(n, b, a);
    }
  }

  /** Off the board symmetry fails: the off-board cell just right of a row's
      last cell lists that cell as a neighbour, which does not list it back. */
  lemma {:induction false} AdjacentAsymmetricOffBoard(n: nat)
    requires n > 0
    ensures IsAdjacent(n, Coord(0, n), Coord(0, n - 1))
    ensures !IsAdjacent(n, Coord(0, n - 1), Coord(0, n))
  {
    AdjacentIff(n, Coord(0, n), Coord(0, n - 1));
    AdjacentIff(n, Coord(0, n - 1), Coord(0, n));
  }

  /** Filtering the one-step targets by bounds is the same as stepping along
      the offsets kept by the one-step bounds filter. */
  lemma {:induction false} KeepValidTargets(n: nat, c: Coord, ds: seq<Offset>)
    ensures KeepValid(n, Targets(c, ds)) == Targets(c, KeepInBounds(n, c, ds))
  {
    if |ds| > 0 {
      assert Targets(c, ds)[1..] == Targets(c, ds[1..]);
      KeepValidTargets(n, c, ds[1..]);
    }
  }

  /** The valid directions lead exactly to the neighbour positions, in the same
      order, because both enumerations filter the same offset table. */
  lemma {:induction false} DirectionsReachNeighbors(n: nat, c: Coord)
    ensures NeighborPositions(n, c) == Targets(c, ValidDirections(n, c))
    ensures forall d :: d in ValidDirections(n, c) ==> IsAdjacent(n, c, Step(c, d))
  {
    KeepValidTargets(n, c, Offsets(c.row));
    forall d | d in ValidDirections(n, c)
      ensures IsAdjacent(n, c, Step(c, d))
    {
      var ds := ValidDirections(n, c);
      var i :| 0 <= i < |ds| && ds[i] == d;
      assert Targets(c, ds)[i] == Step(c, d);
    }
  }

  /** One link of a path read backwards is a link of the path, turned round. */
  lemma {:induction false} ReversedLink(n: nat, ps: seq<Coord>, i: nat)
    requires OnBoard(n, ps) && IsPath(n, ps)
    requires 0 < i < |ps|
    ensures IsAdjacent(n, Reverse(ps)[i - 1], Reverse(ps)[i])
  {
    var rs := Reverse(ps);
    var a, b := ps[|ps| - 1 - i], ps[|ps| - i];
    assert rs[i - 1] == b && rs[i] == a;
    assert IsAdjacent(n, a, b);
    AdjacentSymmetric(n, a, b);
  }

  /** A path read backwards is still a path when it lies on the board. */
  lemma {:induction false} PathReversed(n: nat, ps: seq<Coord>)
    requires OnBoard(n, ps) && IsPath(n, ps)
    ensures IsPath(n, Reverse(ps))
  {
    forall i | 0 < i < |ps|
      ensures IsAdjacent(n, Reverse(ps)[i - 1], Reverse(ps)[i])
    {
      ReversedLink(n, ps, i);
    }
  }
}

=== FILE: oracle.dfy ===
/** The random source, injected: a fixed stream of draws read in order. */
module Oracle {

  /** The draws still to come are `draws[used..]`; past the end every draw is 0. */
  datatype Rng = Rng(draws: seq<nat>, used: nat)

  datatype Drawn = Drawn(value: nat, rest: Rng)

  /** `Math.floor(Math.random() * bound)`: an integer in [0, bound), or 0 when
      the bound is 0. Every call consumes one draw. */
  function Draw(rng: Rng, bound: nat): (r: Drawn)
    ensures bound > 0 ==> r.value < bound
    ensures bound == 0 ==> r.value == 0
    ensures r.rest.draws == rng.draws && r.rest.used == rng.used + 1
  {
    var raw := if rng.used < |rng.draws| then rng.draws[rng.used] else 0;
    Drawn(if bound == 0 then 0 else raw % bound, Rng(rng.draws, rng.used + 1))
  }

  /** Every value in range can be drawn: the stream that holds it next yields it. */
  lemma {:induction false} DrawReachesEveryValue(draws: seq<nat>, used: nat, bound: nat, v: nat)
    requires v < bound
    requires used < |draws| && draws[used] == v
    ensures Draw(Rng(draws, used), bound).value == v
  {
  }
}

=== FILE: selection.dfy ===
/** The selection tracker: drag start, drag move and drag end over the
    finished letter grid, and the word check run on release. Cells are
    identified by their coordinates, one cell per on-board coordinate. */
module Selection {
  import opened Common
  import opened Hex
  import opened Generator

  /** `selectedCells`, `isDragging` and `foundWords`. */
  datatype Tracker = Tracker(selected: seq<Coord>, dragging: bool, found: set<string>)

  /** The state after construction: nothing selected, no drag, nothing found. */
  const Initial := Tracker([], false, {})

  /** What every handler keeps: a drag is in progress exactly when something
      is selected, and the selection is a simple path on the board. */
  ghost predicate Inv(n: nat, t: Tracker) {
    (t.dragging <==> |t.selected| > 0) && IsSimplePath(n, t.selected)
  }

  /** The cell under the mouse or finger: a letter cell, or `None` for anything else. Every
      letter cell carries an on-board coordinate. */
  predicate IsTarget(n: nat, target: Option<Coord>) {
    target.Some? ==> IsValidPosition(n, target.value)
  }

  /** `handleDragStart`: pressing on a letter cell starts a new drag with that
      cell alone, whatever was going on; pressing elsewhere does nothing. */
  function DragStart(n: nat, t: Tracker, target: Option<Coord>): (r: Tracker)
    requires IsTarget(n, target)
    ensures r.found == t.found
    ensures target.Some? ==> Inv(n, r) && r.dragging && r.selected == [target.value]
    ensures target.None? ==> r == t
  {
    match target
    case None => t
    case Some(c) => Tracker([c], true, t.found)
  }

  /** The test of `handleDragMove`: a drag is in progress, and the cell is
      new to the selection and next to its last cell. */
  predicate Extendable(n: nat, t: Tracker, c: Coord)
    requires t.dragging ==> |t.selected| > 0
  {
    t.dragging && c !in t.selected && IsAdjacent(n, t.selected[|t.selected| - 1], c)
  }

  /** `handleDragMove`: moving onto a cell that passes the test appends it;
      any other move changes nothing. */
  function DragMove(n: nat, t: Tracker, target: Option<Coord>): (r: Tracker)
    requires t.dragging ==> |t.selected| > 0
    ensures r.found == t.found && r.dragging == t.dragging
    ensures r.selected == t.selected || (target.Some? && r.selected == t.selected + [target.value])
    ensures r.selected != t.selected <==> target.Some? && Extendable(n, t, target.value)
    ensures Inv(n, t) ==> Inv(n, r)
  {
    match target
    case None => t
    case Some(c) =>
      if Extendable(n, t, c) then
        ExtendKeepsPath(n, t.selected, c);
        Tracker(t.selected + [c], true, t.found)
      else t
  }

  /** Appending a fresh cell adjacent to the last one keeps a simple path simple. */
  lemma {:induction false} ExtendKeepsPath(n: nat, ps: seq<Coord>, c: Coord)
    requires |ps| > 0 && c !in ps && IsAdjacent(n, ps[|ps| - 1], c)
    ensures IsSimplePath(n, ps) ==> IsSimplePath(n, ps + [c])
  {
    AdjacentIff(n, ps[|ps| - 1], c);
    var qs := ps + [c];
    assert qs[|ps|] == c;
    if IsSimplePath(n, ps) {
      forall i | 0 < i < |qs|
        ensures IsAdjacent(n, qs[i - 1], qs[i])
      {
        if i < |ps| {
          assert qs[i - 1] == ps[i - 1] && qs[i] == ps[i];
        }
      }
    }
  }

  /** The word read along a selection: `map(cell => cell.textContent).join('')`. */
  function Spelled(lg: seq<seq<char>>, n: nat, sel: seq<Coord>): string
    requires IsLetterGrid(lg, n) && OnBoard(n, sel)
  {
    seq(|sel|, i requires 0 <= i < |sel| => lg[sel[i].row][sel[i].col])
  }

  /** The word list entry a selection spelling `s` matches: `s` itself if it
      is listed, else `s` reversed if that is listed. */
  function Match(words: seq<string>, s: string): (m: Option<string>)
    ensures m.Some? <==> s in words || Reverse(s) in words
    ensures m.Some? ==> m.value in words && (m.value == s || m.value == Reverse(s))
    ensures s in words ==> m == Some(s)
  {
    if s in words then Some(s)
    else if Reverse(s) in words then Some(Reverse(s))
    else None
  }

  /** The outcome of `checkSelection`: the found set after it, and whether the
      congratulation fired. */
  datatype Checked = Checked(found: set<string>, complete: bool)

  /** `checkSelection` on the spelled word `s`: a match not found before joins
      `foundWords`, and completion fires when that brings the set's size to
      the length of the word list. */
  function CheckSelection(words: seq<string>, found: set<string>, s: string): (r: Checked)
    ensures found <= r.found <= found + Elements(words)
    ensures s in words ==> s in r.found
    ensures s !in words && Reverse(s) in words ==> Reverse(s) in r.found
    ensures forall x :: x in r.found && x !in found ==> x == s || (s !in words && x == Reverse(s))
    ensures r.complete <==> r.found != found && |r.found| == |words|
  {
    match Match(words, s)
    case None => Checked(found, false)
    case Some(m) =>
      if m in found then Checked(found, false)
      else
        var f := found + {m};
        assert f != found by { assert m in f; }
        Checked(f, |f| == |words|)
  }

  /** `handleDragEnd`: while dragging, check the selection, then clear it and
      end the drag; otherwise nothing happens. The second component tells
      whether completion fired. */
  function DragEnd(lg: seq<seq<char>>, n: nat, words: seq<string>, t: Tracker): (r: (Tracker, bool))
    requires IsLetterGrid(lg, n) && OnBoard(n, t.selected)
    ensures !t.dragging ==> r == (t, false)
    ensures t.dragging ==> r.0.selected == [] && !r.0.dragging
    ensures t.dragging ==> r.0.found == CheckSelection(words, t.found, Spelled(lg, n, t.selected)).found
    ensures t.dragging ==> r.1 == CheckSelection(words, t.found, Spelled(lg, n, t.selected)).complete
    ensures r.1 ==> t.dragging && r.0.found != t.found && |r.0.found| == |words|
  {
    if !t.dragging then (t, false)
    else
      var c := CheckSelection(words, t.found, Spelled(lg, n, t.selected));
      (Tracker([], false, c.found), c.complete)
  }

  /** The abstract input events: press on a target, move onto a target,
      release. */
  datatype Event = Pick(target: Option<Coord>) | Hover(target: Option<Coord>) | Release

  predicate IsEvent(n: nat, e: Event) {
    e.Release? || IsTarget(n, e.target)
  }

  /** A tracker after one event, and whether completion fired. */
  datatype Handled = Handled(tracker: Tracker, complete: bool)

  /** Dispatch one event to its handler. */
  function Handle(lg: seq<seq<char>>, n: nat, words: seq<string>, t: Tracker, e: Event): (r: Handled)
    requires IsLetterGrid(lg, n) && Inv(n, t) && IsEvent(n, e)
    ensures Inv(n, r.tracker)
    ensures t.found <= r.tracker.found <= t.found + Elements(words)
    ensures r.complete ==> r.tracker.found != t.found && |r.tracker.found| == |words|
    ensures !e.Release? ==> !r.complete && r.tracker.found == t.found
  {
    match e
    case Pick(target) => Handled(DragStart(n, t, target), false)
    case Hover(target) => Handled(DragMove(n, t, target), false)
    case Release =>
      var (u, done) := DragEnd(lg, n, words, t);
      Handled(u, done)
  }

  /** A tracker after a sequence of events, and how many times completion fired. */
  datatype Ran = Ran(tracker: Tracker, completions: nat)

  function Run(lg: seq<seq<char>>, n: nat, words: seq<string>, t: Tracker, es: seq<Event>): (r: Ran)
    requires IsLetterGrid(lg, n) && Inv(n, t)
    requires forall i :: 0 <= i < |es| ==> IsEvent(n, es[i])
    ensures Inv(n, r.tracker)
    ensures t.found <= r.tracker.found <= t.found + Elements(words)
    decreases |es|
  {
    if |es| == 0 then Ran(t, 0)
    else
      var h := Handle(lg, n, words, t, es[0]);
      var rest := Run(lg, n, words, h.tracker, es[1..]);
      Ran(rest.tracker, (if h.complete then 1 else 0) + rest.completions)
  }

  /** When exactly one of a spelling and its reverse is listed, both reading
      directions of a selection find the same word; when both are listed the
      direction decides. */
  lemma {:induction false} MatchEitherDirection(words: seq<string>, s: string)
    requires !(s in words && Reverse(s) in words)
    ensures Match(words, Reverse(s)) == Match(words, s)
  {
    ReverseReverse(s);
  }

  /** Releasing on a word that was already found changes nothing. */
  lemma {:induction false} ReselectChangesNothing(words: seq<string>, found: set<string>, s: string)
    requires Match(words, s).Some? && Match(words, s).value in found
    ensures CheckSelection(words, found, s) == Checked(found, false)
  {
  }

  /** A subset as large as its superset is the superset. */
  lemma {:induction false} SubsetSameSize<T>(a: set<T>, b: set<T>)
    requires a <= b && |a| >= |b|
    ensures a == b
  {
    if a != b {
      var x :| x in b && x !in a;
      assert a <= b - {x};
      SubsetSmaller(a, b - {x});
    }
  }

  lemma {:induction false} SubsetSmaller<T>(a: set<T>, b: set<T>)
    requires a <= b
    ensures |a| <= |b|
  {
    assert b == a + (b - a);
  }

  /** When completion fires on one event: exactly when the word list has no
      repeats, and this event's find completes the set of listed words. */
  lemma {:induction false} HandleCompletes(lg: seq<seq<char>>, n: nat, words: seq<string>, t: Tracker, e: Event)
    requires IsLetterGrid(lg, n) && Inv(n, t) && IsEvent(n, e)
    requires t.found <= Elements(words)
    ensures var r := Handle(lg, n, words, t, e);
            r.complete <==> Distinct(words) && t.found != Elements(words) && r.tracker.found == Elements(words)
  {
    var r := Handle(lg, n, words, t, e);
    var all := Elements(words);
    ElementsCardinality(words);
    SubsetSmaller(r.tracker.found, all);
    if r.complete {
      SubsetSameSize(r.tracker.found, all);
    }
  }

  /** Completion fires at most once over any run from a state whose found
      words are listed, and it fires exactly when the list has no repeats and
      the run takes the found set from short of the whole list to all of it. */
  lemma {:induction false} RunCompletions(lg: seq<seq<char>>, n: nat, words: seq<string>, t: Tracker, es: seq<Event>)
    requires IsLetterGrid(lg, n) && Inv(n, t)
    requires forall i :: 0 <= i < |es| ==> IsEvent(n, es[i])
    requires t.found <= Elements(words)
    ensures var r := Run(lg, n, words, t, es);
            r.completions == if Distinct(words) && t.found != Elements(words) && r.tracker.found == Elements(words) then 1 else 0
    decreases |es|
  {
    if |es| > 0 {
      var h := Handle(lg, n, words, t, es[0]);
      HandleCompletes(lg, n, words, t, es[0]);
      RunCompletions(lg, n, words, h.tracker, es[1..]);
      var r := Run(lg, n, words, h.tracker, es[1..]);
      assert Run(lg, n, words, t, es).tracker == r.tracker;
    }
  }

  /** From the start of the game, completion fires once if the run ends with
      every listed word found and the list is non-empty and free of repeats,
      and never otherwise. */
  lemma {:induction false} CompletesOnceFromInitial(lg: seq<seq<char>>, n: nat, words: seq<string>, es: seq<Event>)
    requires IsLetterGrid(lg, n)
    requires forall i :: 0 <= i < |es| ==> IsEvent(n, es[i])
    ensures var r := Run(lg, n, words, Initial, es);
            r.completions == if |words| > 0 && Distinct(words) && r.tracker.found == Elements(words) then 1 else 0
  {
    RunCompletions(lg, n, words, Initial, es);
    if |words| > 0 {
      assert words[0] in Elements(words);
    }
  }

  /** A word list with a repeated word never completes: `foundWords` is a
      set and can never reach the list's length. */
  lemma {:induction false} NoCompletionWithRepeats(lg: seq<seq<char>>, n: nat, words: seq<string>, es: seq<Event>)
    requires IsLetterGrid(lg, n)
    requires forall i :: 0 <= i < |es| ==> IsEvent(n, es[i])
    requires !Distinct(words)
    ensures Run(lg, n, words, Initial, es).completions == 0
  {
    CompletesOnceFromInitial(lg, n, words, es);
  }

  /** A selection is never empty when checked, so neither it nor its
      reverse spells the empty word, and one event never finds it. */
  lemma {:induction false} HandleNeverFindsEmpty(lg: seq<seq<char>>, n: nat, words: seq<string>, t: Tracker, e: Event)
    requires IsLetterGrid(lg, n) && Inv(n, t) && IsEvent(n, e)
    requires "" !in t.found
    ensures "" !in Handle(lg, n, words, t, e).tracker.found
  {
    if e.Release? && t.dragging {
      var s := Spelled(lg, n, t.selected);
      assert |s| > 0 && |Reverse(s)| > 0;
    }
  }

  lemma {:induction false} RunNeverFindsEmpty(lg: seq<seq<char>>, n: nat, words: seq<string>, t: Tracker, es: seq<Event>)
    requires IsLetterGrid(lg, n) && Inv(n, t)
    requires forall i :: 0 <= i < |es| ==> IsEvent(n, es[i])
    requires "" !in t.found
    ensures "" !in Run(lg, n, words, t, es).tracker.found
    decreases |es|
  {
    if |es| > 0 {
      var h := Handle(lg, n, words, t, es[0]);
      HandleNeverFindsEmpty(lg, n, words, t, es[0]);
      RunNeverFindsEmpty(lg, n, words, h.tracker, es[1..]);
    }
  }

  /** A word list that holds the empty word never completes: that word is
      reported placed by the generator but can never be found. */
  lemma {:induction false} EmptyWordNeverCompletes(lg: seq<seq<char>>, n: nat, words: seq<string>, es: seq<Event>)
    requires IsLetterGrid(lg, n)
    requires forall i :: 0 <= i < |es| ==> IsEvent(n, es[i])
    requires "" in words
    ensures "" !in Run(lg, n, words, Initial, es).tracker.found
    ensures Run(lg, n, words, Initial, es).completions == 0
  {
    RunNeverFindsEmpty(lg, n, words, Initial, es);
    CompletesOnceFromInitial(lg, n, words, es);
    assert "" in Elements(words);
  }

  /** Reading a selection backwards spells the reversed word. */
  lemma {:induction false} SpelledReversed(lg: seq<seq<char>>, n: nat, sel: seq<Coord>)
    requires IsLetterGrid(lg, n) && OnBoard(n, sel)
    ensures OnBoard(n, Reverse(sel))
    ensures Spelled(lg, n, Reverse(sel)) == Reverse(Spelled(lg, n, sel))
  {
    var rs := Reverse(sel);
    forall i | 0 <= i < |rs|
      ensures IsValidPosition(n, rs[i])
    {
      assert rs[i] == sel[|sel| - 1 - i];
    }
  }

  /** The moves that drag across `cs`, one cell at a time. */
  function Hovers(cs: seq<Coord>): (es: seq<Event>)
    ensures |es| == |cs|
    ensures forall i :: 0 <= i < |cs| ==> es[i] == Hover(Some(cs[i]))
  {
    seq(|cs|, i requires 0 <= i < |cs| => Hover(Some(cs[i])))
  }

  /** Press on the first cell of `ps` and drag across the rest. */
  function Trace(ps: seq<Coord>): (es: seq<Event>)
    requires |ps| > 0
  {
    [Pick(Some(ps[0]))] + Hovers(ps[1..])
  }

  lemma {:induction false} TraceEvents(n: nat, ps: seq<Coord>)
    requires |ps| > 0 && OnBoard(n, ps)
    ensures forall i :: 0 <= i < |Trace(ps)| ==> IsEvent(n, Trace(ps)[i])
  {
    var es := Trace(ps);
    forall i | 0 <= i < |es|
      ensures IsEvent(n, es[i])
    {
      if i > 0 {
        assert es[i] == Hover(Some(ps[i]));
      }
    }
  }

  /** Every prefix of a simple path is one. */
  lemma {:induction false} PrefixSimple(n: nat, ps: seq<Coord>, k: nat)
    requires IsSimplePath(n, ps) && k <= |ps|
    ensures IsSimplePath(n, ps[..k])
  {
    var qs := ps[..k];
    forall i | 0 < i < k
      ensures IsAdjacent(n, qs[i - 1], qs[i])
    {
      assert qs[i - 1] == ps[i - 1] && qs[i] == ps[i];
    }
  }

  lemma {:induction false} HoversAreEvents(n: nat, cs: seq<Coord>)
    requires OnBoard(n, cs)
    ensures forall i :: 0 <= i < |cs| ==> IsEvent(n, Hovers(cs)[i])
  {
  }

  /** The next cell of a simple path extends a selection of its first k cells. */
  lemma {:induction false} MoveAlong(n: nat, t: Tracker, ps: seq<Coord>, k: nat)
    requires IsSimplePath(n, ps) && 0 < k < |ps|
    requires t.selected == ps[..k] && t.dragging
    ensures DragMove(n, t, Some(ps[k])) == Tracker(ps[..k + 1], true, t.found)
  {
    var c := ps[k];
    assert c !in t.selected by {
      forall j | 0 <= j < k
        ensures t.selected[j] != c
      {
        assert t.selected[j] == ps[j];
      }
    }
    assert t.selected[k - 1] == ps[k - 1];
    assert IsAdjacent(n, ps[k - 1], c);
    assert ps[..k + 1] == t.selected + [c];
  }

  /** Dragging on across the rest of a simple path, from a drag that has
      selected its first k cells, selects all of it. */
  lemma {:induction false} HoversExtend(lg: seq<seq<char>>, n: nat, words: seq<string>, t: Tracker, ps: seq<Coord>, k: nat)
    requires IsLetterGrid(lg, n) && IsSimplePath(n, ps)
    requires 0 < k <= |ps|
    requires t.selected == ps[..k] && t.dragging
    ensures Inv(n, t) && forall i :: 0 <= i < |ps| - k ==> IsEvent(n, Hovers(ps[k..])[i])
    ensures Run(lg, n, words, t, Hovers(ps[k..])).tracker == Tracker(ps, true, t.found)
    decreases |ps| - k
  {
    PrefixSimple(n, ps, k);
    HoversAreEvents(n, ps[k..]);
    if k == |ps| {
      assert ps[..k] == ps;
    } else {
      var u := DragMove(n, t, Some(ps[k]));
      MoveAlong(n, t, ps, k);
      var es := Hovers(ps[k..]);
      assert es[0] == Hover(Some(ps[k]));
      assert es[1..] == Hovers(ps[k + 1..]);
      HoversExtend(lg, n, words, u, ps, k + 1);
    }
  }

  /** Every simple path on the board can be selected by pressing on its first
      cell and dragging across the others in order; with the tracker
      invariant this makes the selectable sequences exactly the non-empty
      simple paths. */
  lemma {:induction false} PathIsSelectable(lg: seq<seq<char>>, n: nat, words: seq<string>, t: Tracker, ps: seq<Coord>)
    requires IsLetterGrid(lg, n) && Inv(n, t)
    requires |ps| > 0 && IsSimplePath(n, ps)
    ensures forall i :: 0 <= i < |Trace(ps)| ==> IsEvent(n, Trace(ps)[i])
    ensures Run(lg, n, words, t, Trace(ps)).tracker == Tracker(ps, true, t.found)
  {
    TraceEvents(n, ps);
    var es := Trace(ps);
    var u := DragStart(n, t, Some(ps[0]));
    assert u.selected == ps[..1];
    assert es[1..] == Hovers(ps[1..]);
    HoversExtend(lg, n, words, u, ps, 1);
  }

  /** Selecting a listed word along the cells that spell it, and releasing,
      finds it. */
  lemma {:induction false} TraceFindsWord(lg: seq<seq<char>>, n: nat, words: seq<string>, t: Tracker, ps: seq<Coord>, w: string)
    requires IsLetterGrid(lg, n) && Inv(n, t)
    requires |ps| > 0 && IsSimplePath(n, ps) && Spelled(lg, n, ps) == w
    requires w in words
    ensures forall i :: 0 <= i < |Trace(ps) + [Release]| ==> IsEvent(n, (Trace(ps) + [Release])[i])
    ensures w in Run(lg, n, words, t, Trace(ps) + [Release]).tracker.found
  {
    var es := Trace(ps) + [Release];
    PathIsSelectable(lg, n, words, t, ps);
    RunAppend(lg, n, words, t, Trace(ps), Release);
  }

  /** Selecting it backwards finds it too, unless the reversed spelling is
      itself listed, in which case that word is found instead. */
  lemma {:induction false} TraceBackwardFindsWord(lg: seq<seq<char>>, n: nat, words: seq<string>, t: Tracker, ps: seq<Coord>, w: string)
    requires IsLetterGrid(lg, n) && Inv(n, t)
    requires |ps| > 0 && IsSimplePath(n, ps) && Spelled(lg, n, ps) == w
    requires w in words
    ensures var back := Reverse(ps);
            |back| > 0 && IsSimplePath(n, back) &&
            var r := Run(lg, n, words, t, Trace(back) + [Release]);
            (Reverse(w) in words ==> Reverse(w) in r.tracker.found) &&
            (Reverse(w) !in words ==> w in r.tracker.found)
  {
    var back := Reverse(ps);
    SpelledReversed(lg, n, ps);
    ReverseDistinct(ps);
    PathReversed(n, ps);
    PathIsSelectable(lg, n, words, t, back);
    TraceEvents(n, back);
    RunAppend(lg, n, words, t, Trace(back), Release);
    ReverseReverse(w);
  }

  /** Running events and then one more is handling that one in the state the
      run reached. */
  lemma {:induction false} RunAppend(lg: seq<seq<char>>, n: nat, words: seq<string>, t: Tracker, es: seq<Event>, e: Event)
    requires IsLetterGrid(lg, n) && Inv(n, t)
    requires forall i :: 0 <= i < |es| ==> IsEvent(n, es[i])
    requires IsEvent(n, e)
    ensures forall i :: 0 <= i < |es + [e]| ==> IsEvent(n, (es + [e])[i])
    ensures Run(lg, n, words, t, es + [e]).tracker
         == Handle(lg, n, words, Run(lg, n, words, t, es).tracker, e).tracker
    decreases |es|
  {
    var all := es + [e];
    assert forall i :: 0 <= i < |all| ==> IsEvent(n, all[i]) by {
      forall i | 0 <= i < |all|
        ensures IsEvent(n, all[i])
      {
        if i < |es| { assert all[i] == es[i]; }
      }
    }
    if |es| > 0 {
      var h := Handle(lg, n, words, t, es[0]);
      assert all[0] == es[0] && all[1..] == es[1..] + [e];
      RunAppend(lg, n, words, h.tracker, es[1..], e);
    } else {
      assert all == [e];
    }
  }

  /** A word the finished grid reads along a path is what selecting that
      path spells. */
  lemma {:induction false} ReadsAlongSpelled(lg: seq<seq<char>>, n: nat, ps: seq<Coord>, w: string)
    requires IsLetterGrid(lg, n) && ReadsAlong(lg, n, ps, w)
    ensures Spelled(lg, n, ps) == w
  {
  }

  /** End to end: a non-empty word that the generator reports placed, with
      its cells on a simple path the finished grid reads it along (what
      `Generate` promises when `placed` follows `placeWordAt`), is found by
      dragging over those cells in order and releasing. */
  lemma {:induction false} PlacedWordFound(lg: seq<seq<char>>, n: nat, words: seq<string>, t: Tracker, r: Report)
    requires IsLetterGrid(lg, n) && Inv(n, t)
    requires r.word in words && |r.word| > 0
    requires r.placed && r.at.Some?
    requires IsSimplePath(n, PathOf(r.at.value, r.word)) && ReadsAlong(lg, n, PathOf(r.at.value, r.word), r.word)
    ensures var es := Trace(PathOf(r.at.value, r.word)) + [Release];
            (forall i :: 0 <= i < |es| ==> IsEvent(n, es[i])) && r.word in Run(lg, n, words, t, es).tracker.found
  {
    var ps := PathOf(r.at.value, r.word);
    ReadsAlongSpelled(lg, n, ps, r.word);
    TraceFindsWord(lg, n, words, t, ps, r.word);
  }
}

=== FILE: word_order.dfy ===
/** The longest-first order in which words are placed: `Array.prototype.sort`
    with the comparator `b.length - a.length`, which is stable, so words of
    equal length keep their input order. */
module WordOrder {

  /** Lengths never increase along `ws`. */
  ghost predicate LongestFirst(ws: seq<string>) {
    forall i, j :: 0 <= i < j < |ws| ==> |ws[i]| >= |ws[j]|
  }

  /** The words of `ws` that have length `len`, in order. */
  function OfLength(ws: seq<string>, len: nat): seq<string> {
    if |ws| == 0 then []
    else if |ws[0]| == len then [ws[0]] + OfLength(ws[1..], len)
    else OfLength(ws[1..], len)
  }

  /** Put `w` in front of the first word that is not longer than it. */
  function Insert(w: string, ws: seq<string>): (r: seq<string>)
    ensures multiset(r) == multiset(ws) + multiset{w}
    ensures LongestFirst(ws) ==> LongestFirst(r)
  {
    if |ws| == 0 || |ws[0]| <= |w| then [w] + ws
    else
      var rest := Insert(w, ws[1..]);
      assert ws == [ws[0]] + ws[1..];
      assert LongestFirst(ws) ==> forall x :: x in rest ==> |x| <= |ws[0]| by {
        if LongestFirst(ws) {
          forall x | x in rest
            ensures |x| <= |ws[0]|
          {
            assert x in multiset(rest);
            if x != w {
              assert x in multiset(ws[1..]);
              HeadLongest(ws, x);
            }
          }
        }
      }
      [ws[0]] + rest
  }

  /** In a longest-first list no later word is longer than the first. */
  lemma {:induction false} HeadLongest(ws: seq<string>, x: string)
    requires LongestFirst(ws) && |ws| > 0 && x in ws[1..]
    ensures |x| <= |ws[0]|
  {
    var k :| 0 <= k < |ws[1..]| && ws[1..][k] == x;
    assert ws[k + 1] == x;
  }

  /** The placement order: sorted by length, longest first, stable. */
  function SortByLength(ws: seq<string>): (r: seq<string>)
    ensures multiset(r) == multiset(ws)
    ensures LongestFirst(r)
  {
    if |ws| == 0 then []
    else
      assert ws == [ws[0]] + ws[1..];
      Insert(ws[0], SortByLength(ws[1..]))
  }

  /** Inserting `w` keeps, among the words of each length, the order they had,
      with `w` ahead of the words as long as itself. */
  lemma {:induction false} InsertStable(w: string, ws: seq<string>, len: nat)
    requires LongestFirst(ws)
    ensures OfLength(Insert(w, ws), len) == (if |w| == len then [w] else []) + OfLength(ws, len)
  {
    if |ws| == 0 || |ws[0]| <= |w| {
      assert Insert(w, ws)[1..] == ws;
    } else {
      InsertStable(w, ws[1..], len);
      assert Insert(w, ws)[1..] == Insert(w, ws[1..]);
      if |w| == len {
        assert |ws[0]| != len;
      }
    }
  }

  /** The sort is stable: the words of any one length come out in input order.
      With the two guarantees of `SortByLength` this pins the order down
      completely. */
  lemma {:induction false} SortStable(ws: seq<string>, len: nat)
    ensures OfLength(SortByLength(ws), len) == OfLength(ws, len)
  {
    if |ws| > 0 {
      SortStable(ws[1..], len);
      InsertStable(ws[0], SortByLength(ws[1..]), len);
    }
  }
}
